=== FILE: README.md ===
# js_chart viewport and bounds engine, in Dafny

This project models the core of the `Chart` class of js_chart: the coordinate
rectangles and the pan/zoom viewport state. It covers four things:

- the tight data bounds of the samples (`#getDataBounds`);
- the pixel plotting area, inset by a margin of 10% of the canvas (`#getPixelBounds`);
- the live data bounds, rebuilt from the untouched default bounds, an offset and a scale (`#updateDataBounds`);
- the state effects of the `onmousedown`, `onmousemove`, `onmouseup` and `onwheel` handlers.

It also models the `lerp` and `invLerp` helpers of `math.js` that the bounds
recompute is built on.

Numbers are `real`. Points and offsets are an immutable `Vec` record. A chart
instance is an immutable `Chart` record holding the pixel bounds, the default
and live data bounds, the transform (committed offset and scale) and the drag
record (start, end, pending offset, dragging flag). Each handler is a pure
function from one `Chart` to the next. `Step` and `Run` deliver events in order.

Files and modules:

- `geometry.dfy`, module `Geometry`: `Vec`, componentwise add/subtract/scale, `Lerp`, `InvLerp`.
- `bounds.dfy`, module `ChartBounds`: `Bounds`, `Sample`, `DataBounds`, `PixelBounds`, `UpdateDataBounds`.
- `interaction.dfy`, module `Interaction`: the chart state, the handlers as written, and the invariant every event keeps.
- `synced.dfy`, module `SyncedViewport`: the intended "live bounds show the committed offset" invariant. It holds three as-written counterexamples to it, plus corrected handlers that keep it.

Mouse positions enter the handlers already converted to data space. In the
source, `#getMouse` does this conversion through `math.remapPoint` against the
default data bounds.

Two behaviours of the code that the model keeps as written:

- `onmousedown` (chart.js:43-46) does not reset the pending drag offset. `Interaction.OnMouseDown` keeps it; see Findings.
- A positive `deltaY` grows the scale (chart.js:64-66). So the sequence 1 → 0.95 → 0.9975 takes a negative and then a positive `deltaY` (`Interaction.ZoomSteps`).

## Model

| member | source | states |
|---|---|---|
| Geometry.Lerp | math.js:3-5 | t = 0 gives a, t = 1 gives b, and a == b gives a for every t |
| Geometry.InvLerp | math.js:6-8 | needs distinct ends; v = a gives 0, v = b gives 1, and lerp(a, b, invLerp(a, b, v)) == v |
| Geometry.InvLerpOfLerp | math.js:3-8 | for a != b, invLerp(a, b, lerp(a, b, t)) == t (the other round trip) |
| Geometry.LerpScalesAboutCentre | math.js:3-5 | lerp(c, x, s) - c == s * (x - c): interpolating from a centre scales the displacement from it |
| ChartBounds.Margin | chart.js:17 | the margin is non-negative and one tenth of the canvas edge |
| ChartBounds.Min | chart.js:113-115 | the minimum of a non-empty list is one of its elements and no element is below it |
| ChartBounds.Max | chart.js:114-116 | the maximum of a non-empty list is one of its elements and no element is above it |
| ChartBounds.DataBounds | chart.js:108-124 | defined exactly for non-empty sample lists; every sample lies inside; each of left, right, top, bottom is attained by some sample's x or y; left <= right and bottom <= top |
| ChartBounds.DataBoundsIsSmallest | chart.js:108-124 | any rectangle enclosing every sample contains the data bounds |
| ChartBounds.PixelBounds | chart.js:98-106 | left == top == size / 10, the inset is the same on both sides, left <= right and top <= bottom, and the plotting area is 0.8 × size square |
| ChartBounds.UpdateDataBounds | chart.js:76-88 | the live centre is the default centre plus the offset; live width and height are scale × the default width and height |
| ChartBounds.BoundsDeterminedByCentreAndSize | chart.js:83-87 | centre, width and height fix a rectangle, so the live bounds are fully described by the contract above |
| ChartBounds.UpdateDataBoundsIdentity | chart.js:76-88 | offset (0, 0) and scale 1 give back the default bounds |
| ChartBounds.UpdateDataBoundsKeepsOrientation | chart.js:78-87 | a non-negative scale keeps left <= right and bottom <= top |
| ChartBounds.UpdateDataBoundsInjective | chart.js:78-83 | from the same default bounds and scale, the live bounds are equal exactly when the offsets are equal |
| Interaction.Sign | chart.js:64 | `Math.sign`: the result is -1, 0 or 1, it is 0 exactly for 0, and it has the sign of its argument |
| Interaction.ClampScale | chart.js:67 | the clamped scale is in [0.01, 3], equals the input when in range, and is the nearer end otherwise |
| Interaction.Init | chart.js:17-33 | the live and default data bounds are both the tight sample bounds; offset (0, 0), scale 1; the drag record has start, end and pending offset (0, 0) and is not dragging; no chart for an empty sample list |
| Interaction.OnMouseDown | chart.js:43-46 | dragging starts at the press point; the pending offset, the transform and the live bounds are unchanged |
| Interaction.OnMouseMove | chart.js:47-58 | no effect unless dragging; while dragging, pending == (start - at) × scale, the live centre is default centre + committed + pending, and the committed offset and scale are unchanged |
| Interaction.OnMouseUp | chart.js:59-62 | committed offset += pending offset, dragging stops, and the rest of the drag record and the live bounds are unchanged |
| Interaction.ZoomedScale | chart.js:64-67 | the new scale is in [0.01, 3]; it is scale × (1 + 0.05 × sign(deltaY)) clamped to that range, so exactly that value when in range and the nearer end otherwise; from an in-range scale, deltaY 0 keeps it, a positive deltaY never lowers it and a negative one never raises it |
| Interaction.OnWheel | chart.js:63-73 | the scale takes one zoom step; the committed offset and the drag record are unchanged; the live bounds are centred on default centre + COMMITTED offset with the new scale's size |
| Interaction.Step | chart.js:41-74 | delivering one event to its handler never changes the default or pixel bounds |
| Interaction.Run | chart.js:41-74 | delivering a sequence of events in order never changes the default or pixel bounds |
| Interaction.StepKeepsInv | chart.js:41-73 | every event keeps the scale in range and the live size equal to scale × the default size, and leaves the default and pixel bounds unchanged |
| Interaction.RunKeepsInv | chart.js:41-88 | the same for every sequence of events |
| Interaction.ScaleAlwaysInRange | chart.js:63-67 | from a freshly built chart, the scale is in [0.01, 3] after any events |
| Interaction.WheelRecomputesFromDefault | chart.js:69 | after a wheel event the live bounds do not depend on the previous live bounds or on any drag in progress |
| Interaction.PanCommitsDragOffset | chart.js:43-62 | press at a, move to b, release: committed offset += (a - b) × scale, and the live bounds are the default bounds moved by the new committed offset |
| Interaction.PanWithoutNetMotion | chart.js:43-62 | from a chart whose live bounds show its committed offset, a drag that ends where it started leaves the transform and the live bounds unchanged |
| Interaction.PressReleaseRecommitsPending | chart.js:43-62 | a press and release with no move adds the previous pending offset to the committed offset again, leaving the live bounds as they were |
| Interaction.ZoomSteps | chart.js:64-67 | from scale 1, deltaY -1 gives 0.95, and then deltaY +1 gives 0.9975 |
| SyncedViewport.InitInSync | chart.js:20-33 | a new chart's live bounds show offset (0, 0) at scale 1 |
| SyncedViewport.ClickAfterDragDesyncs | chart.js:43-62 | as written: after a drag, a click commits the drag's offset again and the live bounds no longer show the committed offset |
| SyncedViewport.ZeroDragAfterClickMovesView | chart.js:43-62 | as written: after a drag and a click, a press and a move back to the press point still change the live bounds |
| SyncedViewport.StrayReleaseDesyncs | chart.js:59-62 | as written: a release with no drag on re-commits the stale pending offset, so the live bounds no longer show the committed offset |
| SyncedViewport.WheelDuringDragDesyncs | chart.js:63-69 | as written: a wheel event during a drag drops the pending offset from the live bounds, and the release leaves them out of sync |
| SyncedViewport.OnMouseDownFixed | chart.js:43-46 | corrected press: starts a drag with zero pending offset, first commits a drag still open (the committed offset becomes the effective offset), leaves the view unchanged and keeps the live bounds in sync |
| SyncedViewport.OnMouseUpFixed | chart.js:59-62 | corrected release: commits the pending offset only while dragging, and keeps the live bounds in sync |
| SyncedViewport.OnWheelFixed | chart.js:63-69 | corrected wheel: same zoom step; the live bounds are centred on default centre + the effective offset (the committed offset, plus the pending one only while dragging) and are in sync afterwards |
| SyncedViewport.StepFixedKeepsInSync | chart.js:41-88 | with the corrected press, release and wheel, every event keeps the live bounds equal to the default bounds moved by the effective offset and scaled by the scale |
| SyncedViewport.RunFixedKeepsInSync | chart.js:41-88 | the same for every sequence of events |

## Left out

- graphics.js: canvas drawing primitives and DOM image generation; it is all foreign rendering calls.
- Canvas creation, sizing and styling (chart.js:9-15): DOM calls. The canvas edge is the `size` parameter.
- `#getMouse` (chart.js:90-96): `getBoundingClientRect` is a DOM call, and `math.remapPoint` is not defined in math.js. The handlers take mouse positions already in data space.
- `preventDefault` and the `false` return in the wheel handler (chart.js:71-72): browser behaviour with no effect on chart state.
- `#draw`, `#drawAxis` and `#drawSamples` (chart.js:126-224), including the fixed `transparency` of 0.7 (chart.js:18) and the `styles` and `icon` options: rendering only.
- `math.formatNumber` (math.js:10-12): float-to-string formatting through `Number.prototype.toFixed`.
- IEEE-754 rounding: all arithmetic is exact `real` arithmetic, so the constants 0.1 and 0.05 are exact and `Math.sign` of NaN is not modelled.
- Geometry.InvLerp: requires a != b. The source would return Infinity or NaN there, which `real` cannot represent. Nothing in this core calls it directly.
- ChartBounds.DataBounds: returns `None` for an empty sample list. The source instead produces a rectangle with infinite edges (`Math.min()` of nothing is Infinity).
- Interaction.Init: gives no chart for an empty sample list, following `ChartBounds.DataBounds`. The source constructor still builds a chart, with infinite bounds.
- ChartBounds.PixelBounds: takes the canvas edge as a natural number. A negative or fractional `options.size` is not modelled, because the canvas converts it to an integer while the margin still uses the raw value.
- Hover, nearest-point hit-testing, click selection and the selection callback: they do not appear in chart.js.

## Findings

| source | as written | input that shows it | evidently intended | confidence | as-written member | corrected member |
|---|---|---|---|---|---|---|
| chart.js:43-46 | a press does not reset the pending drag offset, and the release commits it again | drag from a to b (a != b) and release, then click anywhere: the committed offset gains (a - b) × scale twice, and the view jumps at the next wheel or drag, even a drag that ends where it started | a press starts a drag with pending offset zero | medium, not executed | SyncedViewport.ClickAfterDragDesyncs, SyncedViewport.ZeroDragAfterClickMovesView | SyncedViewport.OnMouseDownFixed |
| chart.js:59-62 | a release commits the pending offset even when no drag is on | drag from a to b and release, then a second release (press outside the canvas, release over it): the offset is committed twice | only a release that ends a drag commits | medium, not executed | SyncedViewport.StrayReleaseDesyncs | SyncedViewport.OnMouseUpFixed |
| chart.js:63-69 | a wheel event during a drag recomputes the live bounds from the committed offset alone | press at a, move to b (a != b), wheel, release: the committed offset includes (a - b) × scale but the live bounds do not | the live bounds include the pending drag offset while dragging | medium, not executed | SyncedViewport.WheelDuringDragDesyncs | SyncedViewport.OnWheelFixed |

The `Interaction` handlers model the code as written. `SyncedViewport.StepFixed`
and `RunFixed` use the three corrected handlers together with the unchanged
`onmousemove`. `SyncedViewport.RunFixedKeepsInSync` proves that this corrected
model keeps the live bounds in sync for every event sequence.

=== FILE: bounds.dfy ===
/**
 The rectangles of the chart (chart.js): the tight data bounds of the
 samples, the pixel plotting area inset by the margin, and the live data
 bounds recomputed from the default bounds, an offset and a zoom scale.
 */
module ChartBounds {
  import opened Geometry

  datatype Option<T> = None | Some(value: T)

  /**
   An axis-aligned rectangle. In data space y grows upward (bottom <= top);
   in pixel space y grows downward (top <= bottom).
   */
  datatype Bounds = Bounds(left: real, right: real, top: real, bottom: real)

  /** A labelled point; its label (`category`) only matters for drawing. */
  datatype Sample = Sample(point: Vec, category: string)

  /** The fraction of the canvas edge reserved on each side for axis chrome. */
  const MarginRatio: real := 0.1

  function Centre(b: Bounds): Vec {
    Vec((b.left + b.right) / 2.0, (b.top + b.bottom) / 2.0)
  }

  function Width(b: Bounds): real {
    b.right - b.left
  }

  /** Height measured with data orientation: top minus bottom. */
  function Height(b: Bounds): real {
    b.top - b.bottom
  }

  predicate DataOriented(b: Bounds) {
    b.left <= b.right && b.bottom <= b.top
  }

  predicate PixelOriented(b: Bounds) {
    b.left <= b.right && b.top <= b.bottom
  }

  /** `p` lies inside the data-space rectangle `b`. */
  predicate Encloses(b: Bounds, p: Vec) {
    b.left <= p.x <= b.right && b.bottom <= p.y <= b.top
  }

  /** `inner` lies inside the data-space rectangle `outer`. */
  predicate Contains(outer: Bounds, inner: Bounds) {
    outer.left <= inner.left && inner.right <= outer.right
    && outer.bottom <= inner.bottom && inner.top <= outer.top
  }

  function Xs(samples: seq<Sample>): seq<real> {
    seq(|samples|, i requires 0 <= i < |samples| => samples[i].point.x)
  }

  function Ys(samples: seq<Sample>): seq<real> {
    seq(|samples|, i requires 0 <= i < |samples| => samples[i].point.y)
  }

  /** `Math.min(...xs)` for a non-empty list. */
  function Min(xs: seq<real>): (m: real)
    requires |xs| > 0
    ensures exists i :: 0 <= i < |xs| && xs[i] == m
    ensures forall i :: 0 <= i < |xs| ==> m <= xs[i]
    decreases |xs|
  {
    if |xs| == 1 then xs[0]
    else
      var rest := Min(xs[1..]);
      assert forall i :: 1 <= i < |xs| ==> xs[i] == xs[1..][i - 1];
      if xs[0] <= rest then xs[0] else rest
  }

  /** `Math.max(...xs)` for a non-empty list. */
  function Max(xs: seq<real>): (m: real)
    requires |xs| > 0
    ensures exists i :: 0 <= i < |xs| && xs[i] == m
    ensures forall i :: 0 <= i < |xs| ==> xs[i] <= m
    decreases |xs|
  {
    if |xs| == 1 then xs[0]
    else
      var rest := Max(xs[1..]);
      assert forall i :: 1 <= i < |xs| ==> xs[i] == xs[1..][i - 1];
      if rest <= xs[0] then xs[0] else rest
  }

  /**
   `#getDataBounds`: the tight bounding rectangle of the sample points,
   data y growing upward. `None` stands for the empty sample list, for which
   the source produces infinite bounds.
   */
  function DataBounds(samples: seq<Sample>): (r: Option<Bounds>)
    ensures r.Some? <==> |samples| > 0
    ensures r.Some? ==> DataOriented(r.value)
    ensures r.Some? ==> forall i :: 0 <= i < |samples| ==> Encloses(r.value, samples[i].point)
    ensures r.Some? ==> exists i :: 0 <= i < |samples| && samples[i].point.x == r.value.left
    ensures r.Some? ==> exists i :: 0 <= i < |samples| && samples[i].point.x == r.value.right
    ensures r.Some? ==> exists i :: 0 <= i < |samples| && samples[i].point.y == r.value.top
    ensures r.Some? ==> exists i :: 0 <= i < |samples| && samples[i].point.y == r.value.bottom
  {
    if |samples| == 0 then None
    else
      var xs, ys := Xs(samples), Ys(samples);
      var b := Bounds(Min(xs), Max(xs), Max(ys), Min(ys));
      assert forall i :: 0 <= i < |samples| ==> xs[i] == samples[i].point.x && ys[i] == samples[i].point.y;
      Some(b)
  }

  /** Every rectangle that encloses all samples contains their data bounds. */
  lemma DataBoundsIsSmallest(samples: seq<Sample>, b: Bounds)
    requires |samples| > 0
    requires forall i :: 0 <= i < |samples| ==> Encloses(b, samples[i].point)
    ensures Contains(b, DataBounds(samples).value)
  {
    var d := DataBounds(samples).value;
    var il :| 0 <= il < |samples| && samples[il].point.x == d.left;
    var ir :| 0 <= ir < |samples| && samples[ir].point.x == d.right;
    var it :| 0 <= it < |samples| && samples[it].point.y == d.top;
    var ib :| 0 <= ib < |samples| && samples[ib].point.y == d.bottom;
    assert Encloses(b, samples[il].point) && Encloses(b, samples[ir].point);
    assert Encloses(b, samples[it].point) && Encloses(b, samples[ib].point);
  }

  /** The margin for a canvas of edge `size`. */
  function Margin(size: nat): (m: real)
    ensures 0.0 <= m && 10.0 * m == size as real
  {
    size as real * MarginRatio
  }

  /**
   `#getPixelBounds`: the square canvas of edge `size` inset by the margin
   on all four sides, pixel y growing downward.
   */
  function PixelBounds(size: nat): (r: Bounds)
    ensures PixelOriented(r)
    ensures r.left == r.top == size as real / 10.0
    ensures r.left == size as real - r.right && r.top == size as real - r.bottom
    ensures Width(r) == r.bottom - r.top == 0.8 * size as real
  {
    var margin := Margin(size);
    Bounds(margin, size as real - margin, margin, size as real - margin)
  }

  /**
   `#updateDataBounds`: translate the default rectangle by `offset`, then
   scale the translated rectangle about its own centre by `scale`.
   */
  function UpdateDataBounds(def: Bounds, offset: Vec, scale: real): (r: Bounds)
    ensures Centre(r) == Add(Centre(def), offset)
    ensures Width(r) == scale * Width(def)
    ensures Height(r) == scale * Height(def)
  {
    var moved := Bounds(def.left + offset.x, def.right + offset.x, def.top + offset.y, def.bottom + offset.y);
    var c := Centre(moved);
    LerpScalesAboutCentre(c.x, moved.left, scale);
    LerpScalesAboutCentre(c.x, moved.right, scale);
    LerpScalesAboutCentre(c.y, moved.top, scale);
    LerpScalesAboutCentre(c.y, moved.bottom, scale);
    Bounds(Lerp(c.x, moved.left, scale), Lerp(c.x, moved.right, scale),
           Lerp(c.y, moved.top, scale), Lerp(c.y, moved.bottom, scale))
  }

  /** A rectangle is determined by its centre, width and height. */
  lemma BoundsDeterminedByCentreAndSize(a: Bounds, b: Bounds)
    requires Centre(a) == Centre(b)
    requires Width(a) == Width(b) && Height(a) == Height(b)
    ensures a == b
  {
    assert a.left + a.right == b.left + b.right;
    assert a.top + a.bottom == b.top + b.bottom;
  }

  /** With no offset and unit scale the live bounds are the default bounds. */
  lemma UpdateDataBoundsIdentity(def: Bounds)
    ensures UpdateDataBounds(def, Zero, 1.0) == def
  {
    BoundsDeterminedByCentreAndSize(UpdateDataBounds(def, Zero, 1.0), def);
  }

  /** A non-negative scale keeps the data orientation of the default bounds. */
  lemma UpdateDataBoundsKeepsOrientation(def: Bounds, offset: Vec, scale: real)
    requires DataOriented(def) && scale >= 0.0
    ensures DataOriented(UpdateDataBounds(def, offset, scale))
  {
    var r := UpdateDataBounds(def, offset, scale);
    assert Width(r) >= 0.0 by { assert Width(r) == scale * Width(def); }
    assert Height(r) >= 0.0 by { assert Height(r) == scale * Height(def); }
  }

  /** Equal live bounds from the same default bounds and scale mean equal offsets, and conversely. */
  lemma UpdateDataBoundsInjective(def: Bounds, o1: Vec, o2: Vec, scale: real)
    ensures UpdateDataBounds(def, o1, scale) == UpdateDataBounds(def, o2, scale) <==> o1 == o2
  {
    if UpdateDataBounds(def, o1, scale) == UpdateDataBounds(def, o2, scale) {
      assert Add(Centre(def), o1) == Add(Centre(def), o2);
    }
  }
}

=== FILE: geometry.dfy ===
/**
 The numeric helpers the chart is built on (math.js): linear interpolation,
 its inverse, and the componentwise 2D vector operations chart.js calls.
 Numbers are modelled as `real`; floating-point rounding is not captured.
 */
module Geometry {

  /** A 2D point or displacement, the `[x, y]` arrays of the source. */
  datatype Vec = Vec(x: real, y: real)

  const Zero: Vec := Vec(0.0, 0.0)

  function Add(u: Vec, v: Vec): Vec {
    Vec(u.x + v.x, u.y + v.y)
  }

  function Subtract(u: Vec, v: Vec): Vec {
    Vec(u.x - v.x, u.y - v.y)
  }

  function Scale(v: Vec, k: real): Vec {
    Vec(v.x * k, v.y * k)
  }

  /** `lerp(a, b, t)`: the point a fraction `t` of the way from `a` to `b`. */
  function Lerp(a: real, b: real, t: real): (r: real)
    ensures t == 0.0 ==> r == a
    ensures t == 1.0 ==> r == b
    ensures a == b ==> r == a
  {
    a + (b - a) * t
  }

  /**
   `invLerp(a, b, v)`: the fraction at which `v` lies between `a` and `b`.
   The source divides by `b - a`, so the ends must differ.
   */
  function InvLerp(a: real, b: real, v: real): (t: real)
    requires a != b
    ensures v == a ==> t == 0.0
    ensures v == b ==> t == 1.0
    ensures Lerp(a, b, t) == v
  {
    DivFacts(v - a, b - a);
    (v - a) / (b - a)
  }

  /** The facts about real division `InvLerp` rests on. */
  lemma DivFacts(n: real, d: real)
    requires d != 0.0
    ensures n == 0.0 ==> n / d == 0.0
    ensures n == d ==> n / d == 1.0
    ensures d * (n / d) == n
  {
  }

  /** Interpolating and then taking the inverse gives back the fraction. */
  lemma InvLerpOfLerp(a: real, b: real, t: real)
    requires a != b
    ensures InvLerp(a, b, Lerp(a, b, t)) == t
  {
    var v := Lerp(a, b, t);
    assert v - a == (b - a) * t;
  }

  /**
   Interpolating from a centre `c` towards `x` by `s` scales the
   displacement from the centre by `s`; the zoom step relies on this.
   */
  lemma LerpScalesAboutCentre(c: real, x: real, s: real)
    ensures Lerp(c, x, s) - c == s * (x - c)
  {
  }
}

=== FILE: interaction.dfy ===
/**
 The chart's viewport state and its event handlers (chart.js), as written:
 each handler is a pure transition on an immutable `Chart` record. Mouse
 positions arrive already converted to data space, and drawing is left out.
 */
module Interaction {
  import opened Geometry
  import opened ChartBounds

  const MinScale: real := 0.01
  const MaxScale: real := 3.0
  const ZoomStep: real := 0.05

  /** The committed pan offset and the zoom scale (`dataTrans`). */
  datatype Transform = Transform(offset: Vec, scale: real)

  /**
   The drag record (`dragInfo`): where the press happened, where the mouse
   last was, the pending offset of the drag, and whether a drag is on.
   */
  datatype DragInfo = DragInfo(start: Vec, end: Vec, offset: Vec, dragging: bool)

  /** Everything a chart instance mutates, plus the bounds it never mutates. */
  datatype Chart = Chart(
    pixelBounds: Bounds,
    defaultDataBounds: Bounds,
    dataBounds: Bounds,
    dataTrans: Transform,
    dragInfo: DragInfo)

  datatype Event =
    | MouseDown(at: Vec)
    | MouseMove(at: Vec)
    | MouseUp
    | Wheel(deltaY: real)

  predicate InRange(s: real) {
    MinScale <= s <= MaxScale
  }

  /** `Math.sign`. */
  function Sign(x: real): (r: real)
    ensures r == 1.0 || r == 0.0 || r == -1.0
    ensures r == 0.0 <==> x == 0.0
    ensures r * x >= 0.0
  {
    if x > 0.0 then 1.0 else if x < 0.0 then -1.0 else 0.0
  }

  /** `Math.max(0.01, Math.min(3, s))`: the nearest scale in range. */
  function ClampScale(s: real): (r: real)
    ensures InRange(r)
    ensures InRange(s) ==> r == s
    ensures s < MinScale ==> r == MinScale
    ensures s > MaxScale ==> r == MaxScale
  {
    var capped := if MaxScale < s then MaxScale else s;
    if MinScale < capped then capped else MinScale
  }

  /**
   The chart right after construction: both data rectangles are the tight
   bounds of the samples, no offset, unit scale, no drag. `None` for an
   empty sample list.
   */
  function Init(samples: seq<Sample>, size: nat): (r: Option<Chart>)
    ensures r.Some? <==> |samples| > 0
    ensures r.Some? ==> r.value.dataBounds == r.value.defaultDataBounds == DataBounds(samples).value
    ensures r.Some? ==> r.value.pixelBounds == PixelBounds(size)
    ensures r.Some? ==> r.value.dataTrans == Transform(Zero, 1.0)
    ensures r.Some? ==> r.value.dragInfo == DragInfo(Zero, Zero, Zero, false)
    ensures r.Some? ==> Inv(r.value)
  {
    match DataBounds(samples)
    case None => None
    case Some(b) =>
      Some(Chart(PixelBounds(size), b, b, Transform(Zero, 1.0),
                 DragInfo(Zero, Zero, Zero, false)))
  }

  /** `onmousedown`: start a drag at `at`; the pending offset is kept. */
  function OnMouseDown(c: Chart, at: Vec): (r: Chart)
    ensures r.dragInfo.dragging && r.dragInfo.start == at
    ensures r.dragInfo.offset == c.dragInfo.offset && r.dragInfo.end == c.dragInfo.end
    ensures r.dataTrans == c.dataTrans && r.dataBounds == c.dataBounds
    ensures r.defaultDataBounds == c.defaultDataBounds && r.pixelBounds == c.pixelBounds
  {
    c.(dragInfo := c.dragInfo.(start := at, dragging := true))
  }

  /**
   `onmousemove`: only while dragging, the pending offset becomes
   (start - at) x scale and the live bounds show committed + pending.
   */
  function OnMouseMove(c: Chart, at: Vec): (r: Chart)
    ensures !c.dragInfo.dragging ==> r == c
    ensures r.dataTrans == c.dataTrans && r.dragInfo.dragging == c.dragInfo.dragging
    ensures r.dragInfo.start == c.dragInfo.start
    ensures r.defaultDataBounds == c.defaultDataBounds && r.pixelBounds == c.pixelBounds
    ensures c.dragInfo.dragging ==>
              && r.dragInfo.end == at
              && r.dragInfo.offset == Scale(Subtract(c.dragInfo.start, at), c.dataTrans.scale)
              && Centre(r.dataBounds) == Add(Centre(c.defaultDataBounds), Add(c.dataTrans.offset, r.dragInfo.offset))
              && Width(r.dataBounds) == c.dataTrans.scale * Width(c.defaultDataBounds)
              && Height(r.dataBounds) == c.dataTrans.scale * Height(c.defaultDataBounds)
  {
    if !c.dragInfo.dragging then c
    else
      var pending := Scale(Subtract(c.dragInfo.start, at), c.dataTrans.scale);
      var newOffset := Add(c.dataTrans.offset, pending);
      c.(dragInfo := c.dragInfo.(end := at, offset := pending),
         dataBounds := UpdateDataBounds(c.defaultDataBounds, newOffset, c.dataTrans.scale))
  }

  /**
   `onmouseup`: commit the pending offset (whether or not a drag is on) and
   stop dragging; the pending offset itself is left as it was.
   */
  function OnMouseUp(c: Chart): (r: Chart)
    ensures r.dataTrans.offset == Add(c.dataTrans.offset, c.dragInfo.offset)
    ensures r.dataTrans.scale == c.dataTrans.scale
    ensures r.dragInfo == c.dragInfo.(dragging := false)
    ensures r.dataBounds == c.dataBounds
    ensures r.defaultDataBounds == c.defaultDataBounds && r.pixelBounds == c.pixelBounds
  {
    c.(dataTrans := c.dataTrans.(offset := Add(c.dataTrans.offset, c.dragInfo.offset)),
       dragInfo := c.dragInfo.(dragging := false))
  }

  /** The scale after one wheel event. */
  function ZoomedScale(scale: real, deltaY: real): (r: real)
    ensures InRange(r)
    ensures r == ClampScale(scale * (1.0 + ZoomStep * Sign(deltaY)))
    ensures InRange(scale * (1.0 + ZoomStep * Sign(deltaY))) ==> r == scale * (1.0 + ZoomStep * Sign(deltaY))
    ensures InRange(scale) && deltaY == 0.0 ==> r == scale
    ensures InRange(scale) && deltaY > 0.0 ==> scale <= r
    ensures InRange(scale) && deltaY < 0.0 ==> r <= scale
  {
    var dir := Sign(deltaY);
    var step := scale * ZoomStep;
    ClampScale(scale + dir * step)
  }

  /**
   `onwheel`: step the scale and recompute the live bounds from the default
   bounds, the COMMITTED offset and the new scale; a pending drag offset is
   not included even while dragging.
   */
  function OnWheel(c: Chart, deltaY: real): (r: Chart)
    ensures r.dataTrans.scale == ZoomedScale(c.dataTrans.scale, deltaY)
    ensures r.dataTrans.offset == c.dataTrans.offset && r.dragInfo == c.dragInfo
    ensures r.defaultDataBounds == c.defaultDataBounds && r.pixelBounds == c.pixelBounds
    ensures Centre(r.dataBounds) == Add(Centre(c.defaultDataBounds), c.dataTrans.offset)
    ensures Width(r.dataBounds) == r.dataTrans.scale * Width(c.defaultDataBounds)
    ensures Height(r.dataBounds) == r.dataTrans.scale * Height(c.defaultDataBounds)
  {
    var scale := ZoomedScale(c.dataTrans.scale, deltaY);
    c.(dataTrans := c.dataTrans.(scale := scale),
       dataBounds := UpdateDataBounds(c.defaultDataBounds, c.dataTrans.offset, scale))
  }

  /** One event delivered to the handler `#addEventListeners` installed for it. */
  function Step(c: Chart, e: Event): (r: Chart)
    ensures r.defaultDataBounds == c.defaultDataBounds && r.pixelBounds == c.pixelBounds
  {
    match e
    case MouseDown(at) => OnMouseDown(c, at)
    case MouseMove(at) => OnMouseMove(c, at)
    case MouseUp => OnMouseUp(c)
    case Wheel(deltaY) => OnWheel(c, deltaY)
  }

  /** Deliver the events in order. */
  function Run(c: Chart, events: seq<Event>): (r: Chart)
    ensures r.defaultDataBounds == c.defaultDataBounds && r.pixelBounds == c.pixelBounds
    decreases |events|
  {
    if |events| == 0 then c else Run(Step(c, events[0]), events[1..])
  }

  /**
   What every reachable chart satisfies: the scale is in range and the live
   bounds have the size of the default bounds times the scale.
   */
  predicate Inv(c: Chart) {
    && InRange(c.dataTrans.scale)
    && Width(c.dataBounds) == c.dataTrans.scale * Width(c.defaultDataBounds)
    && Height(c.dataBounds) == c.dataTrans.scale * Height(c.defaultDataBounds)
  }

  lemma StepKeepsInv(c: Chart, e: Event)
    requires Inv(c)
    ensures Inv(Step(c, e))
    ensures Step(c, e).defaultDataBounds == c.defaultDataBounds
    ensures Step(c, e).pixelBounds == c.pixelBounds
  {
    match e
    case MouseDown(at) =>
      InvFromSameView(c, OnMouseDown(c, at));
    case MouseMove(at) =>
      MoveKeepsInv(c, at);
    case MouseUp =>
      InvFromSameView(c, OnMouseUp(c));
    case Wheel(deltaY) =>
      WheelKeepsInv(c, deltaY);
  }

  lemma MoveKeepsInv(c: Chart, at: Vec)
    requires Inv(c)
    ensures Inv(OnMouseMove(c, at))
  {
    if c.dragInfo.dragging {
      var r := OnMouseMove(c, at);
      assert Width(r.dataBounds) == c.dataTrans.scale * Width(c.defaultDataBounds);
      assert Height(r.dataBounds) == c.dataTrans.scale * Height(c.defaultDataBounds);
    }
  }

  lemma WheelKeepsInv(c: Chart, deltaY: real)
    ensures Inv(OnWheel(c, deltaY))
  {
    var r := OnWheel(c, deltaY);
    assert InRange(r.dataTrans.scale);
  }

  /** `Inv` reads only the scale and the two data rectangles. */
  lemma InvFromSameView(c: Chart, r: Chart)
    requires Inv(c)
    requires r.dataTrans.scale == c.dataTrans.scale && r.dataBounds == c.dataBounds
    requires r.defaultDataBounds == c.defaultDataBounds
    ensures Inv(r)
  {
  }

  /**
   Any sequence of events keeps the scale in [0.01, 3] and the live size
   tied to the scale, and never touches the default or pixel bounds.
   */
  lemma {:induction false} RunKeepsInv(c: Chart, events: seq<Event>)
    requires Inv(c)
    ensures Inv(Run(c, events))
    ensures Run(c, events).defaultDataBounds == c.defaultDataBounds
    ensures Run(c, events).pixelBounds == c.pixelBounds
    decreases |events|
  {
    if |events| > 0 {
      StepKeepsInv(c, events[0]);
      RunKeepsInv(Step(c, events[0]), events[1..]);
    }
  }

  /** Any sequence of events from a fresh chart keeps the scale in range. */
  lemma ScaleAlwaysInRange(samples: seq<Sample>, size: nat, events: seq<Event>)
    requires |samples| > 0
    ensures InRange(Run(Init(samples, size).value, events).dataTrans.scale)
  {
    RunKeepsInv(Init(samples, size).value, events);
  }

  /**
   The live bounds after a wheel event depend only on the default bounds,
   the committed offset and the scale: not on the previous live bounds nor
   on any drag in progress.
   */
  lemma WheelRecomputesFromDefault(c1: Chart, c2: Chart, deltaY: real)
    requires c1.defaultDataBounds == c2.defaultDataBounds
    requires c1.dataTrans == c2.dataTrans
    ensures OnWheel(c1, deltaY).dataBounds == OnWheel(c2, deltaY).dataBounds
  {
  }

  /**
   A press at `a`, a move to `b` and a release from a chart showing its
   committed offset commit (a - b) x scale and leave the live bounds
   showing exactly the new committed offset.
   */
  lemma PanCommitsDragOffset(c: Chart, a: Vec, b: Vec)
    ensures var r := OnMouseUp(OnMouseMove(OnMouseDown(c, a), b));
      && r.dataTrans.offset == Add(c.dataTrans.offset, Scale(Subtract(a, b), c.dataTrans.scale))
      && r.dataTrans.scale == c.dataTrans.scale
      && !r.dragInfo.dragging
      && r.dataBounds == UpdateDataBounds(c.defaultDataBounds, r.dataTrans.offset, c.dataTrans.scale)
  {
    var r := OnMouseUp(OnMouseMove(OnMouseDown(c, a), b));
    BoundsDeterminedByCentreAndSize(r.dataBounds,
      UpdateDataBounds(c.defaultDataBounds, r.dataTrans.offset, c.dataTrans.scale));
  }

  /**
   From a chart whose live bounds show its committed offset, a drag that
   ends where it started changes neither the offset nor the view.
   */
  lemma PanWithoutNetMotion(c: Chart, a: Vec)
    requires c.dataBounds == UpdateDataBounds(c.defaultDataBounds, c.dataTrans.offset, c.dataTrans.scale)
    ensures var r := OnMouseUp(OnMouseMove(OnMouseDown(c, a), a));
      r.dataTrans == c.dataTrans && r.dataBounds == c.dataBounds
  {
    PanCommitsDragOffset(c, a, a);
    assert Scale(Subtract(a, a), c.dataTrans.scale) == Zero;
    assert Add(c.dataTrans.offset, Zero) == c.dataTrans.offset;
  }

  /**
   A press and release with no move in between commits the pending offset
   left over from the previous drag once more, without changing the view.
   */
  lemma PressReleaseRecommitsPending(c: Chart, a: Vec)
    ensures var r := OnMouseUp(OnMouseDown(c, a));
      && r.dataTrans.offset == Add(c.dataTrans.offset, c.dragInfo.offset)
      && r.dataBounds == c.dataBounds
      && r.dragInfo.offset == c.dragInfo.offset
  {
  }

  /**
   Zoom is not reversible across mixed directions: from scale 1, a negative
   then a positive wheel step gives 0.95 and then 0.9975.
   */
  lemma ZoomSteps(c: Chart)
    requires c.dataTrans.scale == 1.0
    ensures OnWheel(c, -1.0).dataTrans.scale == 0.95
    ensures OnWheel(OnWheel(c, -1.0), 1.0).dataTrans.scale == 0.9975
  {
  }
}

=== FILE: synced.dfy ===
/**
 Whether the live bounds show what the chart has committed to. The intended
 design keeps the live bounds equal to the default bounds translated by the
 committed offset (plus the pending drag offset while a drag is on) and
 scaled by the current scale. The handlers as written break this in three
 ways, exhibited below; the corrected handlers keep it for every event.
 */
module SyncedViewport {
  import opened Geometry
  import opened ChartBounds
  import opened Interaction

  /** The offset the live bounds should show. */
  function Effective(c: Chart): Vec {
    if c.dragInfo.dragging then Add(c.dataTrans.offset, c.dragInfo.offset) else c.dataTrans.offset
  }

  predicate InSync(c: Chart) {
    && InRange(c.dataTrans.scale)
    && c.dataBounds == UpdateDataBounds(c.defaultDataBounds, Effective(c), c.dataTrans.scale)
  }

  /** A freshly constructed chart is in sync. */
  lemma InitInSync(samples: seq<Sample>, size: nat)
    requires |samples| > 0
    ensures InSync(Init(samples, size).value)
  {
    UpdateDataBoundsIdentity(DataBounds(samples).value);
  }

  /** The pending offset of a drag from `a` to `b` is non-zero when they differ. */
  lemma PendingNonZero(a: Vec, b: Vec, scale: real)
    requires a != b && scale > 0.0
    ensures Scale(Subtract(a, b), scale) != Zero
  {
    if a.x != b.x {
      assert (a.x - b.x) * scale != 0.0;
    } else {
      assert (a.y - b.y) * scale != 0.0;
    }
  }

  /** A drag from `a` to `b` and its release, from a chart in sync. */
  function Drag(c: Chart, a: Vec, b: Vec): (r: Chart)
    requires InSync(c) && a != b
    ensures InSync(r) && !r.dragInfo.dragging
    ensures r.dragInfo.offset == Scale(Subtract(a, b), c.dataTrans.scale) != Zero
    ensures r.dataTrans.offset == Add(c.dataTrans.offset, r.dragInfo.offset)
  {
    PendingNonZero(a, b, c.dataTrans.scale);
    PanCommitsDragOffset(c, a, b);
    OnMouseUp(OnMouseMove(OnMouseDown(c, a), b))
  }

  /**
   As written, a click (press and release without a move) after a drag
   commits that drag's offset a second time: the committed offset moves
   but the live bounds do not, so the next wheel or drag makes the view jump.
   */
  lemma ClickAfterDragDesyncs(c: Chart, a: Vec, b: Vec, p: Vec)
    requires InSync(c) && a != b
    ensures var d := Drag(c, a, b);
      var r := OnMouseUp(OnMouseDown(d, p));
      && r.dataTrans.offset == Add(d.dataTrans.offset, d.dragInfo.offset)
      && !InSync(r)
  {
    var d := Drag(c, a, b);
    var r := OnMouseUp(OnMouseDown(d, p));
    UpdateDataBoundsInjective(d.defaultDataBounds, d.dataTrans.offset, r.dataTrans.offset, d.dataTrans.scale);
  }

  /**
   As written, once a click after a drag has pushed the committed offset
   away from the view, even a drag that ends where it started moves the
   view: the move recomputes the live bounds from the committed offset.
   */
  lemma ZeroDragAfterClickMovesView(c: Chart, a: Vec, b: Vec, p: Vec, q: Vec)
    requires InSync(c) && a != b
    ensures var d := Drag(c, a, b);
      var r := OnMouseMove(OnMouseDown(OnMouseUp(OnMouseDown(d, p)), q), q);
      r.dataBounds != d.dataBounds
  {
    var d := Drag(c, a, b);
    var k := OnMouseUp(OnMouseDown(d, p));
    assert Add(k.dataTrans.offset, Scale(Subtract(q, q), k.dataTrans.scale)) == k.dataTrans.offset;
    UpdateDataBoundsInjective(d.defaultDataBounds, d.dataTrans.offset, k.dataTrans.offset, d.dataTrans.scale);
  }

  /**
   As written, a release that arrives with no drag on (the press happened
   outside the canvas) commits the stale pending offset of the last drag.
   */
  lemma StrayReleaseDesyncs(c: Chart, a: Vec, b: Vec)
    requires InSync(c) && a != b
    ensures !InSync(OnMouseUp(Drag(c, a, b)))
  {
    var d := Drag(c, a, b);
    UpdateDataBoundsInjective(d.defaultDataBounds, d.dataTrans.offset, OnMouseUp(d).dataTrans.offset, d.dataTrans.scale);
  }

  /**
   As written, a wheel event during a drag redraws without the pending drag
   offset, and the release then commits an offset the live bounds do not show.
   */
  lemma WheelDuringDragDesyncs(c: Chart, a: Vec, b: Vec, deltaY: real)
    requires InSync(c) && a != b
    ensures !InSync(OnMouseUp(OnWheel(OnMouseMove(OnMouseDown(c, a), b), deltaY)))
  {
    var m := OnMouseMove(OnMouseDown(c, a), b);
    var w := OnWheel(m, deltaY);
    var r := OnMouseUp(w);
    PendingNonZero(a, b, c.dataTrans.scale);
    assert r.dataTrans.offset != c.dataTrans.offset;
    UpdateDataBoundsInjective(c.defaultDataBounds, c.dataTrans.offset, r.dataTrans.offset, w.dataTrans.scale);
    BoundsDeterminedByCentreAndSize(w.dataBounds,
      UpdateDataBounds(c.defaultDataBounds, c.dataTrans.offset, w.dataTrans.scale));
  }

  /**
   Corrected `onmousedown`: a new drag starts with no pending offset. A drag
   still open (its release was missed) is committed first, so the view
   does not move.
   */
  function OnMouseDownFixed(c: Chart, at: Vec): (r: Chart)
    ensures r.dragInfo == c.dragInfo.(start := at, offset := Zero, dragging := true)
    ensures r.dataTrans.offset == Effective(c) && r.dataTrans.scale == c.dataTrans.scale
    ensures r.dataBounds == c.dataBounds
    ensures r.defaultDataBounds == c.defaultDataBounds && r.pixelBounds == c.pixelBounds
    ensures InSync(c) ==> InSync(r)
  {
    var base := if c.dragInfo.dragging then OnMouseUp(c) else c;
    assert Add(base.dataTrans.offset, Zero) == base.dataTrans.offset;
    base.(dragInfo := base.dragInfo.(start := at, offset := Zero, dragging := true))
  }

  /** Corrected `onmouseup`: commit the pending offset only while dragging. */
  function OnMouseUpFixed(c: Chart): (r: Chart)
    ensures r.dragInfo == c.dragInfo.(dragging := false)
    ensures r.dataTrans.offset == Effective(c) && r.dataTrans.scale == c.dataTrans.scale
    ensures r.dataBounds == c.dataBounds
    ensures r.defaultDataBounds == c.defaultDataBounds && r.pixelBounds == c.pixelBounds
    ensures InSync(c) ==> InSync(r)
  {
    if c.dragInfo.dragging then OnMouseUp(c) else c
  }

  /** Corrected `onwheel`: recompute with the pending drag offset included. */
  function OnWheelFixed(c: Chart, deltaY: real): (r: Chart)
    ensures r.dataTrans.scale == ZoomedScale(c.dataTrans.scale, deltaY)
    ensures r.dataTrans.offset == c.dataTrans.offset && r.dragInfo == c.dragInfo
    ensures r.defaultDataBounds == c.defaultDataBounds && r.pixelBounds == c.pixelBounds
    ensures Centre(r.dataBounds) == Add(Centre(c.defaultDataBounds), Effective(c))
    ensures InSync(r)
  {
    var scale := ZoomedScale(c.dataTrans.scale, deltaY);
    c.(dataTrans := c.dataTrans.(scale := scale),
       dataBounds := UpdateDataBounds(c.defaultDataBounds, Effective(c), scale))
  }

  function StepFixed(c: Chart, e: Event): Chart {
    match e
    case MouseDown(at) => OnMouseDownFixed(c, at)
    case MouseMove(at) => OnMouseMove(c, at)
    case MouseUp => OnMouseUpFixed(c)
    case Wheel(deltaY) => OnWheelFixed(c, deltaY)
  }

  function RunFixed(c: Chart, events: seq<Event>): Chart
    decreases |events|
  {
    if |events| == 0 then c else RunFixed(StepFixed(c, events[0]), events[1..])
  }

  lemma StepFixedKeepsInSync(c: Chart, e: Event)
    requires InSync(c)
    ensures InSync(StepFixed(c, e))
    ensures StepFixed(c, e).defaultDataBounds == c.defaultDataBounds
  {
    match e
    case MouseMove(at) =>
      var r := OnMouseMove(c, at);
      if c.dragInfo.dragging {
        BoundsDeterminedByCentreAndSize(r.dataBounds,
          UpdateDataBounds(c.defaultDataBounds, Effective(r), c.dataTrans.scale));
      }
    case _ =>
  }

  /**
   With the corrected handlers, every sequence of events keeps the live
   bounds showing the committed offset, plus the pending one while dragging.
   */
  lemma {:induction false} RunFixedKeepsInSync(c: Chart, events: seq<Event>)
    requires InSync(c)
    ensures InSync(RunFixed(c, events))
    ensures RunFixed(c, events).defaultDataBounds == c.defaultDataBounds
    decreases |events|
  {
    if |events| > 0 {
      StepFixedKeepsInSync(c, events[0]);
      RunFixedKeepsInSync(StepFixed(c, events[0]), events[1..]);
    }
  }
}
